=== FILE: README.md ===
# Scholar exporter: row extraction and listing URL, modelled in Dafny

This project models the core of `ScholarExporter`, a small Python tool. It
fetches a Google Scholar profile listing and turns each publication row into
a record with six fields: title, year, citation count, authors, journal and
deep link. The model covers four parts:

- `from_user` builds the listing URL from a user id, a page size and a sort
  order. `ScholarExporter(url)` starts with an empty paper list.
- `_parse_contents` extracts one row at a time. The HTML library is hidden
  behind the immutable `Records.Block`. A block holds the row's first `<a>`
  (its text and optional `data-href`), the texts of its `<span>`s, the text of
  its `gsc_a_ac gs_ibl` anchor (if any) and the texts of its `gs_gray` divs.
  `Records.Extract` evaluates the fields in the order of the dict literal:
  title, year, n_citations, authors, journal, url. The first defect in that
  order decides the outcome:
  - `.text` on `None` (AttributeError) skips the row.
  - A missing list element (IndexError) skips the row.
  - A missing `data-href` (KeyError) is never caught, so it aborts the whole
    parse. This happens only when no earlier field has already failed.
- Normalisation: an empty citation text becomes "0". One trailing
  `", " + year` is cut from the journal.
- The batch step appends the successes to the existing list in row order.
  It counts one printed warning per skipped row. An abort leaves the papers
  already appended in the list.

`urllib.parse.quote` (used for the deep link) is modelled as UTF-8 encoding
followed by percent-encoding. Every byte outside the unreserved set of section
2.3 of RFC 3986 and `/` becomes `%XY` with upper-case hex digits, as in
section 2.1 of RFC 3986. Leaving `~` unescaped is the behaviour of Python 3.7
and later. Python's `str(int)` is modelled for the page size.

Modules: `Wrappers` (Option), `Strings`, `Decimal` (Python `str(int)` and a
parser), `Utf8` (encoder and decoder), `Quote` (`quote` and a percent-decoder),
`Records` (block, paper, `Extract`), `RecordLemmas`, `ScholarExporter`
(exporter state, `from_user`, the batch step) and `BatchLemmas`.

In these places the code behaves differently from what a reader might
expect:

- A row without a citation anchor is skipped, not given the count "0". The
  code calls `.text` on `None` and the resulting AttributeError is caught.
  Only an anchor with empty text becomes "0".
- A row with every part present but no `data-href` is fatal to the whole
  parse, not a recoverable per-row failure. (A row that also lacks an
  earlier part is only skipped.)
- After normalisation a journal can still end with `", " + year`, because the
  suffix is cut only once: "X, 2015, 2015" becomes "X, 2015".
- A real row that lacks only its title link does not lose just its title.
  The citation anchor is itself an `<a>`, so `find('a')` returns it: its
  count text would become the title, and it has no `data-href`, so the whole
  parse aborts (`RecordLemmas.MissingTitleLinkAborts`). `Block` can also hold
  a citation anchor without any first anchor, which no real row yields;
  `Records.WellFormed` names the blocks a real row can produce.

## Model

| member | source | states |
|---|---|---|
| ScholarExporter.New | exporter/exporter.py:40-43 | a new exporter keeps the given URL verbatim and has an empty paper list |
| ScholarExporter.FromUser | exporter/exporter.py:45-56 | the URL is exactly the fixed endpoint, `user=` and the user id, `&pagesize=` and `str(page_size)`, `&sortby=` and the sort order, all verbatim; the new exporter has no papers |
| ScholarExporter.Query | exporter/exporter.py:51-54 | the query after the user id starts with `&pagesize=`, and reading it back (`ParseSizeAndSort`) gives exactly the page size and sort order it was built from |
| ScholarExporter.ParseSizeAndSortOf | exporter/exporter.py:51-54 | the text after `&pagesize=` determines the page size and the sort order exactly |
| ScholarExporter.ParseFromUser | exporter/exporter.py:51-54 | when the user id holds no `&`, the built URL determines the user id, page size and sort order exactly (read back by `ParseListingUrl`) |
| ScholarExporter.UnvalidatedUserIsAmbiguous | exporter/exporter.py:51-54 | because nothing is validated, a user id holding `&pagesize=..&sortby=..` gives the same URL as a different argument triple |
| ScholarExporter.FromUserDefaults | exporter/exporter.py:46-49 | the default arguments produce `&pagesize=1000&sortby=citations` |
| Decimal.NatToDecimal | exporter/exporter.py:51-54 | the page size is written as non-empty decimal digits with no leading zero; 0 is written `0` |
| Decimal.IntToString | exporter/exporter.py:51-54 | `str(page_size)` is non-empty, starts with `-` exactly for negative numbers, and after the sign holds only digits with no leading zero; 0 is written `0` |
| Decimal.ParseIntToString | exporter/exporter.py:51-54 | parsing `str(page_size)` gives the page size back |
| Decimal.IntToStringInjective | exporter/exporter.py:51-54 | different page sizes are written differently |
| Records.Extract | exporter/exporter.py:91-109 | the outcome is a skip for the first missing part in dict order (no anchor, no span, no citation anchor, no first or second gray text); it is an abort exactly when every part is there but `data-href` is missing; otherwise it is a record of the anchor text, the last span, the defaulted count, the first gray text, the normalised second gray text and the deep link |
| Records.DefaultCitations | exporter/exporter.py:100-101 | an empty count text becomes "0", and a non-empty text is kept verbatim |
| Records.StripYearSuffix | exporter/exporter.py:103-104 | when the journal ends with `", " + year`, the result followed by that suffix is the journal; otherwise the journal is unchanged |
| Records.DropFirst | exporter/exporter.py:98 | Python's `[1:]`: empty stays empty, and otherwise the first character followed by the result is the input |
| Records.DeepLink | exporter/exporter.py:97-98 | the record's link is the listing URL followed by `#d=gs_md_cita-d&u=%2F` and then the quoted `data-href` minus its first character; `DeepLinkCarriesHref` shows the value decodes back to a `/`-led `data-href` |
| RecordLemmas.CitationsNeverEmpty | exporter/exporter.py:94-101 | in every record the citation count is non-empty: "0" for empty anchor text, the anchor text otherwise |
| RecordLemmas.MissingCitationAnchorSkips | exporter/exporter.py:94-109 | a row without the citation anchor is always skipped (never defaulted, never aborting) |
| RecordLemmas.SkipTakesPrecedenceOverAbort | exporter/exporter.py:92-109 | without `data-href`, a row aborts exactly when all earlier parts are present; otherwise it is skipped |
| RecordLemmas.MissingTitleLinkAborts | exporter/exporter.py:92-98 | a real row that lacks only its title link takes the citation anchor as its first `<a>`, which has no `data-href`, so the whole parse aborts |
| RecordLemmas.WellFormedNoAnchorSkip | exporter/exporter.py:92-94 | in a real row a missing title is skipped only when the citation anchor is missing too |
| RecordLemmas.StripYearSuffixIsPrefix | exporter/exporter.py:103-104 | the normalised journal is a prefix of the raw text, shorter by nothing or by exactly the suffix length |
| RecordLemmas.StripYearSuffixOnce | exporter/exporter.py:103-104 | the suffix is cut at most once: "X, 2015, 2015" becomes "X, 2015", which still ends with ", 2015" |
| RecordLemmas.StripEmptyYear | exporter/exporter.py:103-104 | with an empty year a trailing ", " is removed |
| RecordLemmas.DeepLearningRow | exporter/exporter.py:92-104 | a complete row with "Nature, 2015" and year "2015" gives journal "Nature" and keeps the count "12345" |
| RecordLemmas.EmptyCitationTextDefaults | exporter/exporter.py:100-101 | an empty citation text in a complete row becomes "0" |
| RecordLemmas.DeepLinkReplacesSafeHead | exporter/exporter.py:97-98 | when `data-href` starts with a safe character, that character is dropped and the link carries `%2F` followed by the quoted rest |
| RecordLemmas.DeepLinkCarriesHref | exporter/exporter.py:97-98 | for a `data-href` starting with `/`, the value after `u=` percent-decodes to the `data-href` itself |
| RecordLemmas.DeepLinkUnsafeHead | exporter/exporter.py:97-98 | an example of a `data-href` whose first character is escaped: `" x"` loses the `%` of its escape and gives `%2F20x` |
| Quote.EscapeByte | exporter/exporter.py:98 | a safe byte is written as itself; any other byte becomes `%` and two upper-case hex digits whose values are the byte's high and low halves |
| Quote.HexDigit | exporter/exporter.py:98 | the digit written for n has value n, is an unreserved character and is never lower case |
| Quote.QuoteBytesAlphabet | exporter/exporter.py:98 | the output of `quote` holds only unreserved characters, `/` and `%` |
| Quote.Quote | exporter/exporter.py:98 | `quote` loses nothing: percent-decoding and UTF-8 decoding its output gives the input back |
| Quote.QuoteSafeIsIdentity | exporter/exporter.py:98 | a string of unreserved characters and `/` is left unchanged |
| Quote.QuoteSafeHead | exporter/exporter.py:98 | a leading safe character passes through and the rest is quoted on its own |
| Quote.QuoteEscapesUnsafe | exporter/exporter.py:98 | a leading unsafe character becomes a `%XY` escape and never appears literally (unless it is `%`) |
| Quote.PercentDecodeEscapedSlash | exporter/exporter.py:97-98 | the `%2F` of the fragment followed by a quoted string decodes to `/` followed by that string |
| Utf8.EncodeChar | exporter/exporter.py:98 | each character becomes 1 to 4 UTF-8 bytes; ASCII is one byte equal to itself, and every byte of a longer sequence is at least 0x80 |
| Utf8.Encode | exporter/exporter.py:98 | a string's UTF-8 is its characters' encodings in order, between one and four bytes per character; `DecodeEncode` shows it is decoded back |
| Utf8.DecodeEncodeChar | exporter/exporter.py:98 | the UTF-8 bytes of a character announce their own length and decode back to that character |
| Utf8.DecodeEncode | exporter/exporter.py:98 | UTF-8 decoding undoes UTF-8 encoding for every string |
| Utf8.EncodeAscii | exporter/exporter.py:98 | ASCII text is its own UTF-8 encoding |
| Strings.EndsWithIffSplit | exporter/exporter.py:103 | `endswith` holds exactly when the text is some prefix followed by the suffix |
| Strings.EndsWith | exporter/exporter.py:103 | `str.endswith`: when it holds, the suffix fits and matches the last characters position by position; `EndsWithIffSplit` gives both directions |
| ScholarExporter.OutcomeAt | exporter/exporter.py:88-92 | the i-th outcome is the extraction of the i-th row in document order |
| ScholarExporter.FirstAbort | exporter/exporter.py:97-109 | the parse stops at the first row whose extraction aborts: no earlier row aborts, and that row does |
| ScholarExporter.FoldOutcomes | exporter/exporter.py:89-109 | the loop appends, in row order, the records of the rows before the first row that aborts (every part present but no `data-href`), counts one warning per skipped row among them, reports that row's position or none, and accounts for every row when none aborts |
| ScholarExporter.ParseContents | exporter/exporter.py:86-109 | the URL is unchanged; the old papers stay as a prefix (never reset) followed by the successes before the first abort; a body-less page, or a row with every part present but no `data-href`, escapes as the run's exception (a row missing `data-href` and also an earlier part is only skipped) |
| BatchLemmas.SuccessesAppend | exporter/exporter.py:88-105 | the successes of two runs of rows are the successes of the first followed by those of the second |
| BatchLemmas.OutcomesAppend | exporter/exporter.py:88-92 | the outcomes of concatenated rows are the concatenated outcomes |
| BatchLemmas.RowAccounting | exporter/exporter.py:89-109 | without an abort, the number of records plus the number of warnings equals the number of rows |
| BatchLemmas.OkRows | exporter/exporter.py:88-105 | the k-th record comes from a successful row, and the rows of successive records are strictly increasing (document order) |
| BatchLemmas.OkRowsComplete | exporter/exporter.py:88-105 | every successful row contributes its record |
| BatchLemmas.SkippedRowAddsNothing | exporter/exporter.py:105-109 | a skipped row contributes no record wherever it stands |

## Left out

- Fetching the page (`_get_and_check_response`, exporter/exporter.py:76-84): this is network I/O. The fetched page is the `Document` passed to `ParseContents`, and the exporter's `content` field is not modelled.
- `export` (exporter/exporter.py:58-74), `PAPER_TEMPLATE` (exporter/exporter.py:22-35) and `date.today()`: these are file output, a library formatter and the clock.
- BeautifulSoup parsing and the re-parse of each row (exporter/exporter.py:87-90): this is a foreign library. A page is its optional body and that body's rows in order. Each row is a `Block` holding what the queries return. How BeautifulSoup matches class attributes is not modelled.
- The printed warnings (exporter/exporter.py:107, 109): console output. Only their number is kept.
- `quote` on a string holding lone surrogates raises UnicodeEncodeError. Dafny characters are Unicode scalar values, so such strings cannot be expressed.
- `Quote.PercentDecode` is a strict reference decoder that serves as the inverse of `quote`. It does not model Python's `unquote`, which leaves malformed escapes in place.
- `from_user` accepts any object as `page_size` through `str.format`. The model takes an integer.
- Calling `Extract` twice on the same block gives the same result, because it is a pure function. This needs no lemma.
- example.py: example usage that makes live network calls.

=== FILE: batch_lemmas.dfy ===
/** Properties of the batch step over a page's rows: successes keep row
    order, split over concatenated pages, and every row is accounted for. */
module BatchLemmas {
  import opened Records
  import opened ScholarExporter

  /** Parsing two runs of rows one after the other gives the successes of
      the first run followed by those of the second. */
  lemma {:induction false} SuccessesAppend(a: seq<Extraction>, b: seq<Extraction>)
    ensures Successes(a + b) == Successes(a) + Successes(b)
    decreases |b|
  {
    if b == [] {
      assert a + b == a;
    } else {
      var ab := a + b;
      assert ab[..|ab| - 1] == a + b[..|b| - 1];
      assert ab[|ab| - 1] == b[|b| - 1];
      SuccessesAppend(a, b[..|b| - 1]);
    }
  }

  /** The outcomes of the rows of a page are the outcomes of its parts. */
  lemma {:induction false} OutcomesAppend(a: seq<Block>, b: seq<Block>, listingUrl: string)
    ensures Outcomes(a + b, listingUrl) == Outcomes(a, listingUrl) + Outcomes(b, listingUrl)
    decreases |b|
  {
    if b == [] {
      assert a + b == a;
    } else {
      var ab := a + b;
      assert ab[..|ab| - 1] == a + b[..|b| - 1];
      assert ab[|ab| - 1] == b[|b| - 1];
      OutcomesAppend(a, b[..|b| - 1], listingUrl);
    }
  }

  /** Without an abort every row either adds one record or one warning. */
  lemma {:induction false} RowAccounting(outs: seq<Extraction>)
    requires FirstAbort(outs) == |outs|
    ensures |Successes(outs)| + SkipCount(outs) == |outs|
    decreases |outs|
  {
    if outs != [] {
      var init := outs[..|outs| - 1];
      FirstAbortOfPrefix(outs, |outs| - 1);
      RowAccounting(init);
    }
  }

  /** A prefix before the first abort has no abort of its own. */
  lemma FirstAbortOfPrefix(outs: seq<Extraction>, n: nat)
    requires n <= FirstAbort(outs)
    ensures FirstAbort(outs[..n]) == n
  {
    assert forall j :: 0 <= j < n ==> outs[..n][j] == outs[j];
  }

  /** The positions of the outcomes that succeed, in increasing order, and
      the record each contributes: the successes are exactly the successful
      rows' records, each once, in document order. */
  function OkRows(outs: seq<Extraction>): (ix: seq<nat>)
    ensures |ix| == |Successes(outs)|
    ensures forall k :: 0 <= k < |ix| ==> ix[k] < |outs| && outs[ix[k]] == Ok(Successes(outs)[k])
    ensures forall k, m :: 0 <= k < m < |ix| ==> ix[k] < ix[m]
  {
    if outs == [] then []
    else
      var n := |outs| - 1;
      var init := outs[..n];
      assert forall j :: 0 <= j < n ==> init[j] == outs[j];
      OkRows(init) + (if outs[n].Ok? then [n] else [])
  }

  /** No successful row is left out of `OkRows`. */
  lemma {:induction false} OkRowsComplete(outs: seq<Extraction>, i: nat)
    requires i < |outs| && outs[i].Ok?
    ensures i in OkRows(outs)
    decreases |outs|
  {
    var n := |outs| - 1;
    if i < n {
      var init := outs[..n];
      assert init[i] == outs[i];
      OkRowsComplete(init, i);
    }
  }

  /** A skipped row contributes no record, wherever it stands. */
  lemma SkippedRowAddsNothing(before: seq<Extraction>, d: Defect, after: seq<Extraction>)
    ensures Successes(before + [Skipped(d)] + after) == Successes(before) + Successes(after)
  {
    var skipped := [Skipped(d)];
    assert skipped[..0] == [];
    assert Successes(skipped) == [];
    SuccessesAppend(before, skipped);
    assert Successes(before + skipped) == Successes(before);
    SuccessesAppend(before + skipped, after);
  }
}

=== FILE: decimal.dfy ===
/** Python's `str(n)` / `'{}'.format(n)` for an `int`: optional minus sign,
    then decimal digits without leading zeros; with a parser as its inverse. */
module Decimal {
  import opened Wrappers

  predicate IsDigit(c: char)
  {
    '0' <= c <= '9'
  }

  predicate AllDigits(s: string)
  {
    forall i :: 0 <= i < |s| ==> IsDigit(s[i])
  }

  function DigitChar(d: int): (c: char)
    requires 0 <= d < 10
    ensures IsDigit(c)
  {
    ('0' as int + d) as char
  }

  function DigitValue(c: char): (d: int)
    requires IsDigit(c)
    ensures 0 <= d < 10
    ensures DigitChar(d) == c
  {
    c as int - '0' as int
  }

  /** Decimal digits of `n`, most significant first. */
  function NatToDecimal(n: nat): (s: string)
    ensures |s| > 0 && AllDigits(s)
    ensures s[0] == '0' ==> s == "0"
    decreases n
  {
    if n < 10 then [DigitChar(n)] else NatToDecimal(n / 10) + [DigitChar(n % 10)]
  }

  /** Python's `str(i)`: a `-` before the digits of a negative number. */
  function IntToString(i: int): (s: string)
    ensures |s| > 0
    ensures forall k :: 0 <= k < |s| ==> s[k] == '-' || IsDigit(s[k])
    ensures (s[0] == '-') <==> i < 0
    ensures var digits := if i < 0 then s[1..] else s;
      digits != [] && AllDigits(digits) && (digits[0] == '0' ==> digits == "0")
  {
    if i < 0 then "-" + NatToDecimal(-i) else NatToDecimal(i)
  }

  /** The value of a string of decimal digits. */
  function DigitsValue(s: string): nat
    requires AllDigits(s)
  {
    if s == [] then 0 else DigitsValue(s[..|s| - 1]) * 10 + DigitValue(s[|s| - 1])
  }

  /** Reads back what `IntToString` writes. */
  function ParseInt(s: string): Option<int>
  {
    if |s| > 1 && s[0] == '-' && AllDigits(s[1..]) then Some(0 - DigitsValue(s[1..]) as int)
    else if |s| > 0 && AllDigits(s) then Some(DigitsValue(s))
    else None
  }

  lemma {:induction false} DigitsValueOfDecimal(n: nat)
    ensures DigitsValue(NatToDecimal(n)) == n
    decreases n
  {
    if n >= 10 {
      var s := NatToDecimal(n);
      assert s[..|s| - 1] == NatToDecimal(n / 10);
      DigitsValueOfDecimal(n / 10);
    }
  }

  /** `IntToString` loses nothing: parsing its output gives the number back. */
  lemma ParseIntToString(i: int)
    ensures ParseInt(IntToString(i)) == Some(i)
  {
    var s := IntToString(i);
    if i < 0 {
      assert s[1..] == NatToDecimal(-i);
      DigitsValueOfDecimal(-i);
    } else {
      DigitsValueOfDecimal(i);
    }
  }

  /** Distinct numbers are written differently. */
  lemma IntToStringInjective(i: int, j: int)
    requires IntToString(i) == IntToString(j)
    ensures i == j
  {
    ParseIntToString(i);
    ParseIntToString(j);
  }
}

=== FILE: exporter.dfy ===
/** `ScholarExporter`: the listing URL it is built from, its initial state,
    and the batch step of `_parse_contents`, which runs the row extraction
    over every `tr.gsc_a_tr` of the page body and appends the successes to
    `parsed_papers`. */
module ScholarExporter {
  import opened Wrappers
  import opened Strings
  import opened Decimal
  import opened Records

  /** The exporter's state: the listing URL and the papers parsed so far.
      (The raw page `content` is represented by the `Document` handed to
      `ParseContents`.) */
  datatype Exporter = Exporter(url: string, parsedPapers: seq<Paper>)

  /** `ScholarExporter(url)`: the URL is stored verbatim, no papers yet. */
  function New(url: string): (e: Exporter)
    ensures e.url == url
    ensures e.parsedPapers == []
  {
    Exporter(url, [])
  }

  const UserPrefix: string := "https://scholar.google.co.uk/citations?user="
  const PageSizeKey: string := "&pagesize="
  const SortByKey: string := "&sortby="

  /** The query string after the user id: `&pagesize=<n>&sortby=<s>`. It
      determines the page size and the sort order it was built from. */
  function Query(pageSize: int, sortBy: string): (q: string)
    ensures StartsWith(q, PageSizeKey)
    ensures ParseSizeAndSort(q) == Some((pageSize, sortBy))
  {
    var q := PageSizeKey + IntToString(pageSize) + SortByKey + sortBy;
    assert q[..|PageSizeKey|] == PageSizeKey;
    ParseSizeAndSortOf(pageSize, sortBy);
    q
  }

  /** `ScholarExporter.from_user(user, page_size=1000, sort_by='citations')`:
      the three values are written into the query string without any
      validation or escaping. */
  function FromUser(user: string, pageSize: int := 1000, sortBy: string := "citations"): (e: Exporter)
    ensures e.url == UserPrefix + user + PageSizeKey + IntToString(pageSize) + SortByKey + sortBy
    ensures e.parsedPapers == []
  {
    var q := Query(pageSize, sortBy);
    New(UserPrefix + user + q)
  }

  /** The three values a listing URL was built from. */
  datatype ListingQuery = ListingQuery(user: string, pageSize: int, sortBy: string)

  /** Reads a listing URL back: the user up to the first `&`, the page size up
      to the next `&`, and everything after `&sortby=`. */
  function ParseListingUrl(url: string): Option<ListingQuery>
  {
    if !StartsWith(url, UserPrefix) then None
    else
      var rest := url[|UserPrefix|..];
      var i := IndexOf(rest, '&');
      match ParseSizeAndSort(rest[i..])
      case None => None
      case Some((pageSize, sortBy)) => Some(ListingQuery(rest[..i], pageSize, sortBy))
  }

  /** Reads `&pagesize=<n>&sortby=<s>` back into `n` and `s`. */
  function ParseSizeAndSort(s: string): Option<(int, string)>
  {
    if !StartsWith(s, PageSizeKey) then None
    else
      var sizeAndSort := s[|PageSizeKey|..];
      var j := IndexOf(sizeAndSort, '&');
      var sortPart := sizeAndSort[j..];
      match ParseInt(sizeAndSort[..j])
      case None => None
      case Some(pageSize) =>
        if !StartsWith(sortPart, SortByKey) then None
        else Some((pageSize, sortPart[|SortByKey|..]))
  }

  lemma ParseSizeAndSortOf(pageSize: int, sortBy: string)
    ensures ParseSizeAndSort(PageSizeKey + IntToString(pageSize) + SortByKey + sortBy) == Some((pageSize, sortBy))
  {
    var size := IntToString(pageSize);
    var s := PageSizeKey + size + SortByKey + sortBy;
    assert s[..|PageSizeKey|] == PageSizeKey;
    var sizeAndSort := s[|PageSizeKey|..];
    assert sizeAndSort == size + ['&'] + (SortByKey[1..] + sortBy);
    assert '&' !in size;
    IndexOfAfterClean(size, '&', SortByKey[1..] + sortBy);
    assert sizeAndSort[..|size|] == size;
    ParseIntToString(pageSize);
    var sortPart := sizeAndSort[|size|..];
    assert sortPart == SortByKey + sortBy;
    assert sortPart[..|SortByKey|] == SortByKey;
    assert sortPart[|SortByKey|..] == sortBy;
  }

  /** The user id is everything up to the first `&`. */
  lemma ParseListingUrlSplit(user: string, tail: string)
    requires '&' !in user
    requires StartsWith(tail, "&")
    ensures ParseListingUrl(UserPrefix + user + tail) ==
      match ParseSizeAndSort(tail)
      case None => None
      case Some((pageSize, sortBy)) => Some(ListingQuery(user, pageSize, sortBy))
  {
    var url := UserPrefix + user + tail;
    assert url[..|UserPrefix|] == UserPrefix;
    var rest := url[|UserPrefix|..];
    assert tail == ['&'] + tail[1..];
    assert rest == user + ['&'] + tail[1..];
    IndexOfAfterClean(user, '&', tail[1..]);
    assert rest[..|user|] == user;
    assert rest[|user|..] == tail;
  }

  /** `from_user` loses nothing as long as the user id holds no `&`: the URL
      determines the user, page size and sort order it was built from. */
  lemma ParseFromUser(user: string, pageSize: int, sortBy: string)
    requires '&' !in user
    ensures ParseListingUrl(FromUser(user, pageSize, sortBy).url) == Some(ListingQuery(user, pageSize, sortBy))
  {
    var tail := Query(pageSize, sortBy);
    assert tail[..1] == "&";
    ParseListingUrlSplit(user, tail);
  }

  /** Concatenation regrouped; stated once so the proofs below can name it. */
  lemma Associate(a: string, b: string, c: string)
    ensures a + (b + c) == a + b + c
  {
  }

  lemma FromUserQuery(user: string, pageSize: int, sortBy: string)
    ensures FromUser(user, pageSize, sortBy).url == UserPrefix + user + Query(pageSize, sortBy)
  {
  }

  /** Text appended to the sort order ends up at the end of the query. */
  lemma QueryAppend(pageSize: int, sortBy: string, tail: string)
    ensures Query(pageSize, sortBy + tail) == Query(pageSize, sortBy) + tail
  {
    Associate(PageSizeKey + IntToString(pageSize) + SortByKey, sortBy, tail);
  }

  /** Without validation a user id holding `&` is ambiguous: moving a query
      `&pagesize=<n>&sortby=<s>` from the end of the user id to the end of
      the sort order, and swapping the page sizes, gives the same URL. */
  lemma UnvalidatedUserIsAmbiguous(user: string, size1: int, sort1: string, size2: int, sort2: string)
    ensures FromUser(user + Query(size1, sort1), size2, sort2).url
         == FromUser(user, size1, sort1 + Query(size2, sort2)).url
  {
    var q1 := Query(size1, sort1);
    var q2 := Query(size2, sort2);
    calc {
      FromUser(user + q1, size2, sort2).url;
    == { FromUserQuery(user + q1, size2, sort2); }
      UserPrefix + (user + q1) + q2;
    == { Associate(UserPrefix, user, q1); Associate(UserPrefix + user, q1, q2); }
      UserPrefix + user + (q1 + q2);
    == { QueryAppend(size1, sort1, q2); }
      UserPrefix + user + Query(size1, sort1 + q2);
    == { FromUserQuery(user, size1, sort1 + q2); }
      FromUser(user, size1, sort1 + q2).url;
    }
  }

  /** The default arguments: a page size of 1000, sorted by citations. */
  lemma FromUserDefaults(user: string)
    ensures FromUser(user).url == UserPrefix + user + "&pagesize=1000&sortby=citations"
  {
    assert IntToString(1000) == "1000" by {
      assert NatToDecimal(1) == "1";
      assert NatToDecimal(10) == "10";
      assert NatToDecimal(100) == "100";
      assert NatToDecimal(1000) == "1000";
    }
    assert PageSizeKey + "1000" + SortByKey + "citations" == "&pagesize=1000&sortby=citations";
    Associate(UserPrefix + user + PageSizeKey + "1000", SortByKey, "citations");
  }

  /** The page as the parser sees it: `parser.body` (absent when the markup
      has no body) and, inside it, the publication rows in document order. */
  datatype Document = Document(body: Option<seq<Block>>)

  /** An exception that escapes `_parse_contents`. */
  datatype Fault =
    | NoBody                    // `parser.body.find_all` on None: AttributeError
    | MissingDataHref(row: nat) // the row's KeyError, raised outside the handlers

  /** The state after `_parse_contents`, the number of warnings printed, and
      the exception it raised, if any. Papers appended before an exception
      stay in the list. */
  datatype Run = Run(exporter: Exporter, warnings: nat, fault: Option<Fault>)

  /** The outcome of every row, in row order. */
  function Outcomes(rows: seq<Block>, listingUrl: string): (outs: seq<Extraction>)
    ensures |outs| == |rows|
  {
    if rows == [] then []
    else Outcomes(rows[..|rows| - 1], listingUrl) + [Extract(rows[|rows| - 1], listingUrl)]
  }

  /** Each outcome is the extraction of the row at the same position. */
  lemma {:induction false} OutcomeAt(rows: seq<Block>, listingUrl: string, i: nat)
    requires i < |rows|
    ensures Outcomes(rows, listingUrl)[i] == Extract(rows[i], listingUrl)
    decreases |rows|
  {
    var n := |rows| - 1;
    if i < n {
      assert rows[..n][i] == rows[i];
      OutcomeAt(rows[..n], listingUrl, i);
    }
  }

  /** The records of the outcomes that succeed, in order. */
  function Successes(outs: seq<Extraction>): seq<Paper>
  {
    if outs == [] then []
    else
      var last := outs[|outs| - 1];
      Successes(outs[..|outs| - 1]) + (if last.Ok? then [last.paper] else [])
  }

  /** The number of skipped rows, each with one printed warning. */
  function SkipCount(outs: seq<Extraction>): nat
  {
    if outs == [] then 0
    else SkipCount(outs[..|outs| - 1]) + (if outs[|outs| - 1].Skipped? then 1 else 0)
  }

  /** The index of the first abort, or `|outs|` if there is none. */
  function FirstAbort(outs: seq<Extraction>): (k: nat)
    ensures k <= |outs|
    ensures forall j :: 0 <= j < k ==> !outs[j].Abort?
    ensures k < |outs| ==> outs[k].Abort?
  {
    if outs == [] then 0
    else if outs[0].Abort? then 0
    else 1 + FirstAbort(outs[1..])
  }

  lemma PrefixStep(outs: seq<Extraction>, i: nat)
    requires i < |outs|
    ensures Successes(outs[..i + 1]) ==
      Successes(outs[..i]) + (if outs[i].Ok? then [outs[i].paper] else [])
    ensures SkipCount(outs[..i + 1]) == SkipCount(outs[..i]) + (if outs[i].Skipped? then 1 else 0)
  {
    assert outs[..i + 1][..i] == outs[..i];
  }

  /** What the row loop leaves behind: the paper list, the number of
      warnings printed and the position of the row that aborted, if any. */
  datatype Tally = Tally(papers: seq<Paper>, warnings: nat, abortAt: Option<nat>)

  /** The row loop of `_parse_contents`: the rows' outcomes are taken in
      order, each record is appended to `papers0`, each skipped row adds one
      warning, and the first abort stops the loop with its position. */
  method FoldOutcomes(papers0: seq<Paper>, rows: seq<Block>, url: string) returns (t: Tally)
    ensures
      var outs := Outcomes(rows, url);
      var k := FirstAbort(outs);
      && t.papers == papers0 + Successes(outs[..k])
      && t.warnings == SkipCount(outs[..k])
      && t.abortAt == (if k < |outs| then Some(k) else None)
    ensures t.abortAt.None? ==> |t.papers| + t.warnings == |papers0| + |rows|
  {
    var outs := Outcomes(rows, url);
    var papers := papers0;
    var warnings := 0;
    var i := 0;
    while i < |outs|
      invariant 0 <= i <= |outs|
      invariant i <= FirstAbort(outs)
      invariant papers == papers0 + Successes(outs[..i])
      invariant warnings == SkipCount(outs[..i])
      invariant |papers| + warnings == |papers0| + i
    {
      PrefixStep(outs, i);
      if outs[i].Abort? {
        return Tally(papers, warnings, Some(i));
      } else if outs[i].Ok? {
        papers := papers + [outs[i].paper];
      } else {
        warnings := warnings + 1;
      }
      i := i + 1;
    }
    assert outs[..i] == outs;
    return Tally(papers, warnings, None);
  }

  /** `_parse_contents` on an already-fetched page: no body raises at once;
      otherwise the rows are parsed against the exporter's own URL, the
      records are appended to the existing list (never reset) and a row with
      every part present but no `data-href` escapes as the run's exception. */
  method ParseContents(e: Exporter, doc: Document) returns (r: Run)
    ensures r.exporter.url == e.url
    ensures |r.exporter.parsedPapers| >= |e.parsedPapers|
    ensures r.exporter.parsedPapers[..|e.parsedPapers|] == e.parsedPapers
    ensures doc.body.None? ==> r == Run(e, 0, Some(NoBody))
    ensures doc.body.Some? ==>
      var outs := Outcomes(doc.body.value, e.url);
      var k := FirstAbort(outs);
      && r.exporter.parsedPapers == e.parsedPapers + Successes(outs[..k])
      && r.warnings == SkipCount(outs[..k])
      && r.fault == (if k < |outs| then Some(MissingDataHref(k)) else None)
    ensures doc.body.Some? && r.fault.None? ==>
      |r.exporter.parsedPapers| + r.warnings == |e.parsedPapers| + |doc.body.value|
  {
    match doc.body
    case None =>
      r := Run(e, 0, Some(NoBody));
    case Some(rows) =>
      var t := FoldOutcomes(e.parsedPapers, rows, e.url);
      var fault := match t.abortAt
        case None => None
        case Some(k) => Some(MissingDataHref(k));
      r := Run(Exporter(e.url, t.papers), t.warnings, fault);
  }
}

=== FILE: quote.dfy ===
/** Python's `urllib.parse.quote(s)` with its default `safe='/'`: the string
    is encoded as UTF-8 and every byte outside the unreserved set of section
    2.3 of RFC 3986 and `/` is written as `%` and two upper-case hex digits
    (percent-encoding, section 2.1 of RFC 3986). Leaving `~` unescaped is
    the behaviour of Python 3.7 and later. */
module Quote {
  import opened Wrappers
  import Utf8

  /** The unreserved characters of section 2.3 of RFC 3986. */
  predicate IsUnreserved(c: char)
  {
    || 'A' <= c <= 'Z'
    || 'a' <= c <= 'z'
    || '0' <= c <= '9'
    || c == '-' || c == '.' || c == '_' || c == '~'
  }

  /** Characters `quote` leaves alone: the unreserved set plus its default
      `safe` character `/`. */
  predicate IsSafe(c: char)
  {
    IsUnreserved(c) || c == '/'
  }

  /** Upper-case hexadecimal digit, as `quote` writes them. */
  function HexDigit(n: int): (c: char)
    requires 0 <= n < 16
    ensures IsUnreserved(c)
    ensures HexValue(c) == Some(n) && !('a' <= c <= 'z')
  {
    if n < 10 then ('0' as int + n) as char else ('A' as int + n - 10) as char
  }

  /** Value of a hexadecimal digit of either case. */
  function HexValue(c: char): Option<int>
  {
    if '0' <= c <= '9' then Some(c as int - '0' as int)
    else if 'A' <= c <= 'F' then Some(c as int - 'A' as int + 10)
    else if 'a' <= c <= 'f' then Some(c as int - 'a' as int + 10)
    else None
  }

  /** One byte as `quote` writes it: itself if it is a safe character, else
      `%` and two hex digits that spell the byte's value. */
  function EscapeByte(b: Utf8.Byte): (s: string)
    ensures IsSafe(b as int as char) ==> s == [b as int as char]
    ensures !IsSafe(b as int as char) ==>
      && |s| == 3 && s[0] == '%'
      && HexValue(s[1]) == Some(b as int / 16)
      && HexValue(s[2]) == Some(b as int % 16)
      && !('a' <= s[1] <= 'z') && !('a' <= s[2] <= 'z')
  {
    var c := b as int as char;
    if IsSafe(c) then [c]
    else
      ['%', HexDigit(b as int / 16), HexDigit(b as int % 16)]
  }

  function QuoteBytes(bs: seq<Utf8.Byte>): string
  {
    if bs == [] then [] else EscapeByte(bs[0]) + QuoteBytes(bs[1..])
  }

  /** `quote(s)`: the escaped UTF-8 bytes of `s`. It loses nothing:
      percent-decoding the result restores `s`. */
  function Quote(s: string): (r: string)
    ensures PercentDecode(r) == Some(s)
  {
    UnescapeQuoteBytes(Utf8.Encode(s));
    Utf8.DecodeEncode(s);
    QuoteBytes(Utf8.Encode(s))
  }

  /** The output of `quote` holds only safe characters and `%`. */
  lemma {:induction false} QuoteBytesAlphabet(bs: seq<Utf8.Byte>)
    ensures forall i :: 0 <= i < |QuoteBytes(bs)| ==> IsSafe(QuoteBytes(bs)[i]) || QuoteBytes(bs)[i] == '%'
  {
    if bs != [] {
      QuoteBytesAlphabet(bs[1..]);
      var e := EscapeByte(bs[0]);
      if !IsSafe(bs[0] as int as char) {
        assert e == ['%', HexDigit(bs[0] as int / 16), HexDigit(bs[0] as int % 16)];
      }
    }
  }

  /** The bytes a percent-encoded ASCII string stands for, or `None` when it
      holds a non-ASCII character or a `%` not followed by two hex digits. */
  function UnescapeBytes(s: string): Option<seq<Utf8.Byte>>
  {
    if s == [] then Some([])
    else if s[0] == '%' then
      if |s| < 3 then None
      else match (HexValue(s[1]), HexValue(s[2]))
        case (Some(hi), Some(lo)) =>
          (match UnescapeBytes(s[3..])
           case None => None
           case Some(rest) => Some([(hi * 16 + lo) as Utf8.Byte] + rest))
        case _ => None
    else if s[0] as int < 0x80 then
      match UnescapeBytes(s[1..])
      case None => None
      case Some(rest) => Some([s[0] as int as Utf8.Byte] + rest)
    else None
  }

  /** Percent-decoding followed by UTF-8 decoding: the inverse of `Quote`. */
  function PercentDecode(s: string): Option<string>
  {
    match UnescapeBytes(s)
    case None => None
    case Some(bs) => Utf8.Decode(bs)
  }

  lemma UnescapeEscapeByte(b: Utf8.Byte, tail: string)
    ensures UnescapeBytes(EscapeByte(b) + tail) ==
      match UnescapeBytes(tail)
      case None => None
      case Some(rest) => Some([b] + rest)
  {
    var e := EscapeByte(b);
    var s := e + tail;
    if IsSafe(b as int as char) {
      assert s[0] != '%' && s[0] as int < 0x80;
      assert s[1..] == tail;
    } else {
      assert s[1] == e[1] && s[2] == e[2];
      assert s[3..] == tail;
    }
  }

  lemma {:induction false} UnescapeQuoteBytes(bs: seq<Utf8.Byte>)
    ensures UnescapeBytes(QuoteBytes(bs)) == Some(bs)
  {
    if bs != [] {
      UnescapeQuoteBytes(bs[1..]);
      UnescapeEscapeByte(bs[0], QuoteBytes(bs[1..]));
      assert [bs[0]] + bs[1..] == bs;
    }
  }

  lemma {:induction false} QuoteBytesAppend(a: seq<Utf8.Byte>, b: seq<Utf8.Byte>)
    ensures QuoteBytes(a + b) == QuoteBytes(a) + QuoteBytes(b)
  {
    if a == [] {
      assert a + b == b;
    } else {
      assert (a + b)[0] == a[0];
      assert (a + b)[1..] == a[1..] + b;
      QuoteBytesAppend(a[1..], b);
    }
  }

  /** A string made only of safe characters is left unchanged. */
  lemma {:induction false} QuoteSafeIsIdentity(s: string)
    requires forall i :: 0 <= i < |s| ==> IsSafe(s[i])
    ensures Quote(s) == s
  {
    if s != [] {
      assert s == [s[0]] + s[1..];
      Utf8.EncodeAppend([s[0]], s[1..]);
      assert Utf8.Encode([s[0]]) == Utf8.EncodeChar(s[0]);
      QuoteBytesAppend(Utf8.EncodeChar(s[0]), Utf8.Encode(s[1..]));
      QuoteSafeIsIdentity(s[1..]);
    }
  }

  /** A leading safe character passes through and the rest is quoted on its
      own: `quote(c + t) == c + quote(t)`. */
  lemma QuoteSafeHead(c: char, t: string)
    requires IsSafe(c)
    ensures Quote([c] + t) == [c] + Quote(t)
  {
    Utf8.EncodeAppend([c], t);
    assert Utf8.Encode([c]) == Utf8.EncodeChar(c);
    QuoteBytesAppend(Utf8.EncodeChar(c), Utf8.Encode(t));
  }

  /** A character outside the safe set always becomes at least one `%XY`
      triple, so (unless it is `%` itself) it never appears literally. */
  lemma QuoteEscapesUnsafe(c: char, t: string)
    requires !IsSafe(c)
    ensures Quote([c] + t)[0] == '%'
    ensures c != '%' ==> c !in Quote([c] + t)
  {
    Utf8.EncodeAppend([c], t);
    assert Utf8.Encode([c]) == Utf8.EncodeChar(c);
    QuoteBytesAppend(Utf8.EncodeChar(c), Utf8.Encode(t));
    var bs := Utf8.EncodeChar(c);
    assert QuoteBytes(bs) == EscapeByte(bs[0]) + QuoteBytes(bs[1..]);
    QuoteBytesAlphabet(Utf8.Encode([c] + t));
  }

  /** An escaped `/` in front of a quoted string decodes to `/` in front of
      the original string. */
  lemma PercentDecodeEscapedSlash(t: string)
    ensures PercentDecode("%2F" + Quote(t)) == Some("/" + t)
  {
    var value := "%2F" + Quote(t);
    UnescapeQuoteBytes(Utf8.Encode(t));
    assert value[3..] == Quote(t);
    assert HexValue(value[1]) == Some(2) && HexValue(value[2]) == Some(15);
    assert UnescapeBytes(value) == Some([0x2F as Utf8.Byte] + Utf8.Encode(t));
    var href := "/" + t;
    assert href[0] == '/' && href[1..] == t;
    assert Utf8.Encode(href) == Utf8.EncodeChar('/') + Utf8.Encode(t);
    Utf8.DecodeEncode(href);
  }
}

=== FILE: records.dfy ===
/** One publication row of the listing page and the record the exporter
    builds from it (`ScholarExporter._parse_contents`, one loop iteration).

    The HTML library is hidden behind `Block`: what the row's queries return.
    Python evaluates the dict literal's values left to right — title, year,
    n_citations, authors, journal, url — so the first defect in that order
    decides the outcome: an `AttributeError` (`.text` on `None`) or an
    `IndexError` (missing list element) skips the row, while a `KeyError`
    (no `data-href`) is never caught and aborts the whole parse. */
module Records {
  import opened Wrappers
  import opened Strings
  import Quote

  /** The row's first `<a>`: its text and its `data-href` attribute, if any. */
  datatype Anchor = Anchor(text: string, dataHref: Option<string>)

  /** What the queries on one `tr.gsc_a_tr` row return:
      `find('a')`, the texts of `find_all('span')`,
      the text of `find('a', {'class': 'gsc_a_ac gs_ibl'})`,
      and the texts of `find_all('div', {'class': 'gs_gray'})`. */
  datatype Block = Block(
    firstAnchor: Option<Anchor>,
    spans: seq<string>,
    citationAnchor: Option<string>,
    grays: seq<string>)

  /** The blocks a real row can produce: the citation anchor is itself an
      `<a>`, so whenever it is present `find('a')` finds some anchor. */
  predicate WellFormed(b: Block)
  {
    b.citationAnchor.Some? ==> b.firstAnchor.Some?
  }

  /** The record appended to `parsed_papers`, fields in dict order. */
  datatype Paper = Paper(
    title: string,
    year: string,
    nCitations: string,
    authors: string,
    journal: string,
    url: string)

  /** The defect that stopped a row, named after the field being evaluated.
      Each raises an exception that the loop catches, printing a warning. */
  datatype Defect =
    | NoAnchor          // title: `find('a')` is None (AttributeError)
    | NoSpan            // year: `find_all('span')[-1]` on an empty list (IndexError)
    | NoCitationAnchor  // n_citations: the `gsc_a_ac gs_ibl` anchor is None (AttributeError)
    | NoAuthors         // authors: no `gs_gray` div (IndexError)
    | NoJournal         // journal: only one `gs_gray` div (IndexError)

  /** Outcome of one row: a record, a skipped row (warning printed), or the
      uncaught `KeyError` for a missing `data-href`. */
  datatype Extraction = Ok(paper: Paper) | Skipped(defect: Defect) | Abort

  /** The fixed text between the listing URL and the escaped detail link. */
  const FragmentPrefix: string := "#d=gs_md_cita-d&u=%2F"

  /** Python's `s[1:]`, which is empty for an empty `s`. */
  function DropFirst(s: string): (r: string)
    ensures s == [] ==> r == []
    ensures s != [] ==> [s[0]] + r == s
  {
    if s == [] then [] else s[1..]
  }

  /** The record's `url`: listing URL, fragment prefix, then the quoted
      `data-href` without its first character. */
  function DeepLink(listingUrl: string, href: string): (r: string)
    ensures StartsWith(r, listingUrl + FragmentPrefix)
  {
    listingUrl + FragmentPrefix + DropFirst(Quote.Quote(href))
  }

  /** An empty citation text becomes "0"; any other text is kept verbatim. */
  function DefaultCitations(raw: string): (r: string)
    ensures r != []
    ensures raw == [] ==> r == "0"
    ensures raw != [] ==> r == raw
  {
    if raw == [] then "0" else raw
  }

  /** The suffix removed from the journal text: `', ' + year`. */
  function YearSuffix(year: string): (r: string)
    ensures |r| == |year| + 2
  {
    ", " + year
  }

  /** Journal normalisation: one trailing `', ' + year` is cut off, if present. */
  function StripYearSuffix(journal: string, year: string): (r: string)
    ensures EndsWith(journal, YearSuffix(year)) ==> r + YearSuffix(year) == journal
    ensures !EndsWith(journal, YearSuffix(year)) ==> r == journal
  {
    var suffix := YearSuffix(year);
    if EndsWith(journal, suffix) then journal[..|journal| - |suffix|] else journal
  }

  /** A row that has every part the dict literal reads except, possibly,
      the `data-href` attribute. */
  predicate HasAllParts(b: Block)
  {
    b.firstAnchor.Some? && b.spans != [] && b.citationAnchor.Some? && |b.grays| >= 2
  }

  /** One iteration of the row loop. The first missing part in dict order
      decides a skip; a complete row without `data-href` aborts; otherwise
      the record holds the anchor text, the last span, the defaulted
      citation count, the two gray texts (journal normalised) and the link. */
  function Extract(b: Block, listingUrl: string): (r: Extraction)
    ensures r == Skipped(NoAnchor) <==> b.firstAnchor.None?
    ensures r == Skipped(NoSpan) <==> b.firstAnchor.Some? && b.spans == []
    ensures r == Skipped(NoCitationAnchor) <==>
      b.firstAnchor.Some? && b.spans != [] && b.citationAnchor.None?
    ensures r == Skipped(NoAuthors) <==>
      b.firstAnchor.Some? && b.spans != [] && b.citationAnchor.Some? && b.grays == []
    ensures r == Skipped(NoJournal) <==>
      b.firstAnchor.Some? && b.spans != [] && b.citationAnchor.Some? && |b.grays| == 1
    ensures r.Abort? <==> HasAllParts(b) && b.firstAnchor.value.dataHref.None?
    ensures r.Ok? <==> HasAllParts(b) && b.firstAnchor.value.dataHref.Some?
    ensures r.Ok? ==>
      var year := b.spans[|b.spans| - 1];
      && r.paper.title == b.firstAnchor.value.text
      && r.paper.year == year
      && r.paper.nCitations == DefaultCitations(b.citationAnchor.value)
      && r.paper.authors == b.grays[0]
      && r.paper.journal == StripYearSuffix(b.grays[1], year)
      && r.paper.url == DeepLink(listingUrl, b.firstAnchor.value.dataHref.value)
  {
    match b.firstAnchor
    case None => Skipped(NoAnchor)
    case Some(anchor) =>
      if b.spans == [] then Skipped(NoSpan)
      else
        var year := b.spans[|b.spans| - 1];
        match b.citationAnchor
        case None => Skipped(NoCitationAnchor)
        case Some(citations) =>
          if |b.grays| < 1 then Skipped(NoAuthors)
          else if |b.grays| < 2 then Skipped(NoJournal)
          else
            match anchor.dataHref
            case None => Abort
            case Some(href) =>
              Ok(Paper(
                anchor.text,
                year,
                DefaultCitations(citations),
                b.grays[0],
                StripYearSuffix(b.grays[1], year),
                DeepLink(listingUrl, href)))
  }
}

=== FILE: records_lemmas.dfy ===
/** Properties of the row extraction: defaulting, suffix stripping, the
    precedence of skip over abort, and what the synthesised link encodes. */
module RecordLemmas {
  import opened Wrappers
  import opened Strings
  import Quote
  import Utf8
  import opened Records

  /** A finished record never has an empty citation count: an empty anchor
      text becomes "0" and any other text is kept as it is. */
  lemma CitationsNeverEmpty(b: Block, listingUrl: string)
    requires Extract(b, listingUrl).Ok?
    ensures Extract(b, listingUrl).paper.nCitations != []
    ensures b.citationAnchor.value == [] ==> Extract(b, listingUrl).paper.nCitations == "0"
    ensures b.citationAnchor.value != [] ==>
      Extract(b, listingUrl).paper.nCitations == b.citationAnchor.value
  {
  }

  /** A row without the citation anchor is skipped, never given a count of
      "0", and never aborts, whatever else it lacks. */
  lemma MissingCitationAnchorSkips(b: Block, listingUrl: string)
    requires b.citationAnchor.None?
    ensures Extract(b, listingUrl).Skipped?
    ensures Extract(b, listingUrl).defect in {NoAnchor, NoSpan, NoCitationAnchor}
  {
  }

  /** A missing `data-href` aborts only when no earlier field already
      failed; otherwise the row is merely skipped. */
  lemma SkipTakesPrecedenceOverAbort(b: Block, listingUrl: string)
    requires b.firstAnchor.Some? && b.firstAnchor.value.dataHref.None?
    ensures Extract(b, listingUrl).Abort? <==> HasAllParts(b)
    ensures !HasAllParts(b) ==> Extract(b, listingUrl).Skipped?
  {
  }

  /** In a real row a missing title is skipped only when the citation anchor
      is missing too. */
  lemma WellFormedNoAnchorSkip(b: Block, listingUrl: string)
    requires WellFormed(b)
    ensures Extract(b, listingUrl) == Skipped(NoAnchor) ==> b.citationAnchor.None?
  {
  }

  /** A real row that lacks only its title link has the citation anchor as
      its first `<a>`: that anchor has no `data-href`, so the row aborts the
      whole parse instead of being skipped. */
  lemma MissingTitleLinkAborts(b: Block, listingUrl: string)
    requires b.citationAnchor.Some?
    requires b.firstAnchor == Some(Anchor(b.citationAnchor.value, None))
    requires b.spans != [] && |b.grays| >= 2
    ensures WellFormed(b)
    ensures Extract(b, listingUrl) == Abort
  {
  }

  /** Normalisation only shortens the journal text, by nothing or by exactly
      the suffix, and keeps what remains as a prefix. */
  lemma StripYearSuffixIsPrefix(journal: string, year: string)
    ensures var r := StripYearSuffix(journal, year);
      && StartsWith(journal, r)
      && (|journal| == |r| || |journal| == |r| + |year| + 2)
  {
    var r := StripYearSuffix(journal, year);
    if EndsWith(journal, YearSuffix(year)) {
      assert journal[..|r|] == (r + YearSuffix(year))[..|r|];
    }
  }

  /** The suffix is cut once only: a doubled year keeps its first copy. */
  lemma StripYearSuffixOnce()
    ensures StripYearSuffix("X, 2015, 2015", "2015") == "X, 2015"
    ensures EndsWith(StripYearSuffix("X, 2015, 2015", "2015"), YearSuffix("2015"))
  {
    var j := "X, 2015, 2015";
    assert j[|j| - 6..] == ", 2015";
    assert j[..|j| - 6] == "X, 2015";
    assert "X, 2015"[1..] == ", 2015";
  }

  /** With an empty year the suffix is ", ", so a trailing ", " is removed. */
  lemma StripEmptyYear(journal: string)
    ensures StripYearSuffix(journal + ", ", "") == journal
  {
    var j := journal + ", ";
    assert j[|j| - 2..] == ", ";
    assert j[..|j| - 2] == journal;
  }

  /** A row with every part: title "Deep Learning", year "2015", count
      "12345", gray texts "A. Author" and "Nature, 2015". */
  lemma DeepLearningRow(listingUrl: string, href: string)
    ensures Extract(
              Block(Some(Anchor("Deep Learning", Some(href))), ["2015"], Some("12345"),
                    ["A. Author", "Nature, 2015"]),
              listingUrl)
         == Ok(Paper("Deep Learning", "2015", "12345", "A. Author", "Nature",
                     DeepLink(listingUrl, href)))
  {
    var j := "Nature, 2015";
    assert j[|j| - 6..] == ", 2015";
    assert j[..|j| - 6] == "Nature";
  }

  /** A complete row whose citation anchor has empty text gets the count "0". */
  lemma EmptyCitationTextDefaults(listingUrl: string, href: string)
    ensures Extract(
              Block(Some(Anchor("T", Some(href))), ["", "1999"], Some(""), ["A", "J"]),
              listingUrl).paper.nCitations == "0"
  {
  }

  /** The first character of `data-href` is dropped after quoting; when it
      is a safe character its place is taken by the `%2F` of the prefix. */
  lemma DeepLinkReplacesSafeHead(listingUrl: string, c: char, rest: string)
    requires Quote.IsSafe(c)
    ensures DeepLink(listingUrl, [c] + rest) == listingUrl + FragmentPrefix + Quote.Quote(rest)
  {
    Quote.QuoteSafeHead(c, rest);
  }

  /** For a `data-href` that starts with `/` (as the listing's detail links
      do), the value after `u=` percent-decodes to the `data-href` itself. */
  lemma DeepLinkCarriesHref(listingUrl: string, href: string)
    requires StartsWith(href, "/")
    ensures DeepLink(listingUrl, href) ==
      listingUrl + "#d=gs_md_cita-d&u=" + ("%2F" + Quote.Quote(href[1..]))
    ensures Quote.PercentDecode("%2F" + Quote.Quote(href[1..])) == Some(href)
  {
    var t := href[1..];
    assert href == ['/'] + t;
    assert DeepLink(listingUrl, href) == listingUrl + "#d=gs_md_cita-d&u=" + ("%2F" + Quote.Quote(t)) by {
      DeepLinkReplacesSafeHead(listingUrl, '/', t);
    }
    assert Quote.PercentDecode("%2F" + Quote.Quote(t)) == Some("/" + t) by {
      Quote.PercentDecodeEscapedSlash(t);
    }
  }

  /** A `data-href` that starts with an escaped character loses the `%` of
      its first escape: " x" yields the value "%2F20x", which decodes to "/20x". */
  lemma DeepLinkUnsafeHead(listingUrl: string)
    ensures DeepLink(listingUrl, " x") == listingUrl + "#d=gs_md_cita-d&u=" + "%2F20x"
  {
    var bs := Utf8.Encode(" x");
    assert bs == [0x20 as Utf8.Byte, 0x78 as Utf8.Byte];
    assert Quote.QuoteBytes(bs[1..]) == "x";
    assert Quote.Quote(" x") == "%20x";
  }
}

=== FILE: strings.dfy ===
/** Small facts about strings used by the exporter: prefix and suffix tests
    (Python's `str.startswith` / `str.endswith`) and the first position of a
    character (`str.find`, returning the length when the character is absent). */
module Strings {

  predicate StartsWith(s: string, prefix: string)
  {
    |prefix| <= |s| && s[..|prefix|] == prefix
  }

  function EndsWith(s: string, suffix: string): (b: bool)
    ensures b ==> |suffix| <= |s| && s[..|s| - |suffix|] + suffix == s
  {
    if |suffix| <= |s| then
      assert s[..|s| - |suffix|] + s[|s| - |suffix|..] == s;
      s[|s| - |suffix|..] == suffix
    else false
  }

  /** `EndsWith` agrees with the definition by decomposition: `s` ends with
      `suffix` exactly when `s` is some string followed by `suffix`. */
  lemma EndsWithIffSplit(s: string, suffix: string)
    ensures EndsWith(s, suffix) <==> exists k :: 0 <= k <= |s| && s[..k] + suffix == s
  {
    if EndsWith(s, suffix) {
      var k := |s| - |suffix|;
      assert s[..k] + s[k..] == s;
    }
    if exists k :: 0 <= k <= |s| && s[..k] + suffix == s {
      var k :| 0 <= k <= |s| && s[..k] + suffix == s;
      assert |s| - |suffix| == k;
      assert s[k..] == suffix;
    }
  }

  /** Position of the first `c` in `s`, or `|s|` when `s` holds no `c`. */
  function IndexOf(s: string, c: char): (k: nat)
    ensures k <= |s|
    ensures forall j :: 0 <= j < k ==> s[j] != c
    ensures k < |s| ==> s[k] == c
  {
    if s == [] then 0
    else if s[0] == c then 0
    else
      IndexOf(s[1..], c) + 1
  }

  /** The first `c` in `a + [c] + b` is the one right after `a` when `a`
      holds none. */
  lemma IndexOfAfterClean(a: string, c: char, b: string)
    requires c !in a
    ensures IndexOf(a + [c] + b, c) == |a|
  {
    var s := a + [c] + b;
    assert s[|a|] == c;
    assert forall j :: 0 <= j < |a| ==> s[j] == a[j];
  }
}

=== FILE: utf8.dfy ===
/** UTF-8 (RFC 3629), the encoding Python's `urllib.parse.quote` applies to a
    `str` before escaping it byte by byte; with a decoder as its inverse. */
module Utf8 {
  import opened Wrappers

  newtype Byte = x: int | 0 <= x < 256

  /** The integers that are Unicode scalar values, i.e. Dafny `char`s. */
  predicate IsScalar(x: int)
  {
    0 <= x < 0xD800 || 0xE000 <= x < 0x11_0000
  }

  predicate IsContinuation(b: Byte)
  {
    0x80 <= b < 0xC0
  }

  /** The UTF-8 bytes of one scalar value: 1 byte below 0x80, 2 below 0x800,
      3 below 0x10000, else 4; six payload bits per continuation byte. */
  function EncodeChar(c: char): (bs: seq<Byte>)
    ensures 1 <= |bs| <= 4
    ensures |bs| == 1 <==> c as int < 0x80
    ensures |bs| == 1 ==> bs[0] as int == c as int
    ensures forall i :: 0 <= i < |bs| && |bs| > 1 ==> bs[i] >= 0x80
    ensures forall i :: 1 <= i < |bs| ==> IsContinuation(bs[i])
  {
    var x := c as int;
    var low := x % 64;
    var y := x / 64;
    if x < 0x80 then [x as Byte]
    else if x < 0x800 then [(0xC0 + y) as Byte, (0x80 + low) as Byte]
    else
      var mid := y % 64;
      var z := y / 64;
      if x < 0x1_0000 then [(0xE0 + z) as Byte, (0x80 + mid) as Byte, (0x80 + low) as Byte]
      else [(0xF0 + z / 64) as Byte, (0x80 + z % 64) as Byte, (0x80 + mid) as Byte, (0x80 + low) as Byte]
  }

  /** UTF-8 of a whole string: the characters' encodings in order. */
  function Encode(s: string): (bs: seq<Byte>)
    ensures |s| <= |bs| <= 4 * |s|
  {
    if s == [] then [] else EncodeChar(s[0]) + Encode(s[1..])
  }

  /** Number of bytes announced by a lead byte; 0 for a byte that cannot lead. */
  function SequenceLength(lead: Byte): (n: nat)
    ensures n <= 4
  {
    if lead < 0x80 then 1
    else if lead < 0xC0 then 0
    else if lead < 0xE0 then 2
    else if lead < 0xF0 then 3
    else if lead < 0xF8 then 4
    else 0
  }

  /** The scalar value held by one complete encoded sequence, rejecting
      overlong forms, surrogates and values above U+10FFFF. */
  function DecodeSequence(bs: seq<Byte>): Option<char>
    requires 1 <= |bs| <= 4 && |bs| == SequenceLength(bs[0])
  {
    if |bs| == 1 then Some(bs[0] as int as char)
    else if exists i :: 1 <= i < |bs| && !IsContinuation(bs[i]) then None
    else
      var x :=
        if |bs| == 2 then (bs[0] as int - 0xC0) * 64 + (bs[1] as int - 0x80)
        else if |bs| == 3 then ((bs[0] as int - 0xE0) * 64 + (bs[1] as int - 0x80)) * 64 + (bs[2] as int - 0x80)
        else (((bs[0] as int - 0xF0) * 64 + (bs[1] as int - 0x80)) * 64 + (bs[2] as int - 0x80)) * 64 + (bs[3] as int - 0x80);
      var least := if |bs| == 2 then 0x80 else if |bs| == 3 then 0x800 else 0x1_0000;
      if least <= x && IsScalar(x) then Some(x as char) else None
  }

  /** Decodes a byte string, or `None` if it is not well-formed UTF-8. */
  function Decode(bs: seq<Byte>): Option<string>
    decreases |bs|
  {
    if bs == [] then Some([])
    else
      var n := SequenceLength(bs[0]);
      if n == 0 || |bs| < n then None
      else match DecodeSequence(bs[..n])
        case None => None
        case Some(c) =>
          match Decode(bs[n..])
          case None => None
          case Some(rest) => Some([c] + rest)
  }

  lemma DecodeEncodeChar(c: char)
    ensures SequenceLength(EncodeChar(c)[0]) == |EncodeChar(c)|
    ensures DecodeSequence(EncodeChar(c)) == Some(c)
  {
    var x := c as int;
    var y := x / 64;
    var z := y / 64;
    assert x == y * 64 + x % 64;
    assert y == z * 64 + y % 64;
    assert z == (z / 64) * 64 + z % 64;
  }

  lemma {:induction false} EncodeAppend(a: string, b: string)
    ensures Encode(a + b) == Encode(a) + Encode(b)
  {
    if a == [] {
      assert a + b == b;
    } else {
      assert (a + b)[0] == a[0];
      assert (a + b)[1..] == a[1..] + b;
      EncodeAppend(a[1..], b);
    }
  }

  /** Decoding undoes encoding, for every string. */
  lemma {:induction false} DecodeEncode(s: string)
    ensures Decode(Encode(s)) == Some(s)
  {
    if s != [] {
      var head := EncodeChar(s[0]);
      var bs := Encode(s);
      DecodeEncodeChar(s[0]);
      assert bs[..|head|] == head;
      assert bs[|head|..] == Encode(s[1..]);
      DecodeEncode(s[1..]);
      assert [s[0]] + s[1..] == s;
    }
  }

  /** ASCII text is its own UTF-8 encoding, one byte per character. */
  lemma {:induction false} EncodeAscii(s: string)
    requires forall i :: 0 <= i < |s| ==> s[i] as int < 0x80
    ensures |Encode(s)| == |s|
    ensures forall i :: 0 <= i < |s| ==> Encode(s)[i] as int == s[i] as int
  {
    if s != [] {
      EncodeAscii(s[1..]);
    }
  }
}

=== FILE: wrappers.dfy ===
/** The optional-value wrapper shared by the other modules. */
module Wrappers {

  /** A value that may be absent: Python's `None` versus a present value. */
  datatype Option<+T> = None | Some(value: T)
}
